=== FILE: README.md ===
# signald per-account persistence: sender-key tracker and store registry

This project models two pieces of signald's database layer in Dafny and proves
properties of them.

- **The sender-key "shared with" tracker** (`SenderKeySharedTable`). For each
  local account, it records which recipient devices already hold the sender key
  of each group distribution id. The table is a `set<Row>` of
  `(account, address, device, distribution)`. Every method is a pure transition
  on that set. The SQL statements are modelled by their WHERE clauses, and each
  JDBC parameter slot is either bound, left unbound, or absent from the clause
  (module `Statements`).
- **The store registry** (`Database`). It holds a map from account ACI to its
  `Database` instance, the backend kind resolved once from the connection
  descriptor, and the shared connection slot. The static fields become one
  immutable `State`. Each static method that can raise returns a `Step`: the value returned or
  the exception raised, plus the state it leaves behind. A raised exception does
  not roll that state back. Stores and connections are numbered in the order
  they are built, so "the identical instance" can be stated.

Modules:

- `Outcomes`: Option and Result.
- `Statements`: rows, WHERE clauses, and statement and batch execution.
- `SenderKeyShared`: the tracker.
- `SenderKeySharedLemmas`: properties of the tracker.
- `Database`: the registry.
- `DatabaseLemmas`: properties of the registry.

Failures of the backend that raise `SQLException` (a closed connection,
`DriverManager.getConnection` failing, a driver error) come in through a
`Backend` parameter. Methods that catch and log
`SQLException` return the table unchanged, or the empty set. Methods declared
`throws SQLException` return a `Result`. Whether `DriverManager.getConnection`
succeeds is the `reachable` parameter of `Database.GetConn`. The configuration
values (`Config.getDb()`, user, password) are a `Config` parameter.

The model follows the code as written. Three of its behaviours are easy to
overlook:

- `close()` does not clear the per-account instance cache. A later `Get` of an
  account cached before `close` returns the old instance without resolving the
  kind again (`DatabaseLemmas.CloseKeepsInstances`). After a reconfiguration,
  stores of both families therefore coexist
  (`DatabaseLemmas.CloseThenReconfigureMixesFamilies`).
- `markSenderKeySharedWith` swallows a failed batch. It does not report it to
  the caller.
- `clearSenderKeySharedWith(addresses)` (`SenderKeySharedTable.java:96-99`) sets
  parameters 1 (account) and 3 (device id) of its three-parameter DELETE.
  Parameter 2 (the address) is never set. See Findings.

## Model

| member | source | states |
|---|---|---|
| Statements.ApplyDeletes | src/main/java/io/finn/signald/db/Database.java:214-224 | Running a DELETE batch entry by entry removes exactly the rows that some entry's WHERE clause selects. |
| Statements.ApplyInserts | src/main/java/io/finn/signald/db/Database.java:214-224 | Running an INSERT OR REPLACE batch entry by entry gives the old rows plus exactly the batch's rows, with no duplicates. |
| Statements.DeleteRemovesWhatQuerySelects | src/main/java/io/finn/signald/db/Database.java:178-200 | A DELETE and a SELECT with the same WHERE clause succeed or fail together, and the DELETE removes exactly the rows the SELECT returns. |
| Statements.ExecuteDeleteBatch | src/main/java/io/finn/signald/db/Database.java:214-224 | A DELETE batch fails as a whole when the backend is down, or when it refuses unbound parameters and some entry has one. Otherwise it removes the rows any entry selects. |
| Statements.ExecuteInsertBatch | src/main/java/io/finn/signald/db/Database.java:214-224 | An insert batch fails exactly when the backend is down. Otherwise it adds exactly its rows. |
| SenderKeyShared.GetSenderKeySharedWith | src/main/java/io/finn/signald/db/SenderKeySharedTable.java:35-54 | Never reports a device without a row `(aci, name, device, d)`. When the backend works, it returns the address `(name, device)` exactly when that row is in the table. A failed query yields the empty set instead of an exception. |
| SenderKeyShared.SharedRows | src/main/java/io/finn/signald/db/SenderKeySharedTable.java:60-66 | The batch holds one row `(aci, a.name, a.device, d)` per listed address `a`, in order. |
| SenderKeyShared.MarkSenderKeySharedWith | src/main/java/io/finn/signald/db/SenderKeySharedTable.java:56-72 | Afterwards the table holds the old rows plus `(aci, a.name, a.device, d)` for each listed `a`, and nothing else. A failure leaves the table unchanged. |
| SenderKeyShared.ClearWithDistributionBatch | src/main/java/io/finn/signald/db/SenderKeySharedTable.java:78-84 | Entry `i` of the batch binds the account, the distribution id into the address slot, address `i`'s device id, and the distribution id again. |
| SenderKeyShared.ClearSenderKeySharedWith | src/main/java/io/finn/signald/db/SenderKeySharedTable.java:74-90 | As written, it removes exactly the rows of `aci` under `d` whose address column equals `d` and whose device matches a listed device id. It keeps everything else. |
| SenderKeyShared.ClearSenderKeySharedWithIntended | src/main/java/io/finn/signald/db/SenderKeySharedTable.java:74-90 | Corrected version: removes exactly the listed devices `(name, device)` of `aci` under `d`. |
| SenderKeyShared.ClearAcrossBatch | src/main/java/io/finn/signald/db/SenderKeySharedTable.java:96-100 | Entry `i` of the batch binds the account to `aci` and the device to address `i`'s device id, leaves the address parameter unbound, and puts no condition on the distribution. |
| SenderKeyShared.ClearSenderKeySharedWithAcross | src/main/java/io/finn/signald/db/SenderKeySharedTable.java:92-106 | As written, the table is unchanged for every input and backend behaviour. |
| SenderKeyShared.ClearSenderKeySharedWithAcrossIntended | src/main/java/io/finn/signald/db/SenderKeySharedTable.java:92-106 | Corrected version: removes exactly the listed devices of `aci`, under every distribution. |
| SenderKeyShared.DeleteAllFor | src/main/java/io/finn/signald/db/SenderKeySharedTable.java:110-117 | Fails exactly when the backend is down. Otherwise it removes exactly the rows with `account == aci` and `distribution == d`. |
| SenderKeyShared.DeleteForAll | src/main/java/io/finn/signald/db/SenderKeySharedTable.java:119-126 | Fails exactly when the backend is down. Otherwise it removes exactly the rows of `aci` whose address is the recipient's ACI, under every distribution. |
| SenderKeyShared.DeleteAccount | src/main/java/io/finn/signald/db/SenderKeySharedTable.java:127-133 | Fails exactly when the backend is down. Otherwise it removes exactly the rows whose account is `uuid`. |
| SenderKeyShared.DeleteSharedWith | src/main/java/io/finn/signald/db/SenderKeySharedTable.java:135-142 | Same removal set as `deleteForAll`: the rows of `aci` whose address is the source's ACI. |
| SenderKeySharedLemmas.MarkThenGet | src/main/java/io/finn/signald/db/SenderKeySharedTable.java:35-72 | After marking, the holders of `d` are the previous holders plus exactly the marked devices. So every marked address is reported. |
| SenderKeySharedLemmas.MarkIdempotent | src/main/java/io/finn/signald/db/SenderKeySharedTable.java:56-72 | Marking the same devices twice leaves the same table as marking them once. |
| SenderKeySharedLemmas.DeleteAllForIsolation | src/main/java/io/finn/signald/db/SenderKeySharedTable.java:110-117 | After deleting distribution `d`, `d` has no holders. Every other distribution of the account keeps its holders, and other accounts' rows are unchanged. |
| SenderKeySharedLemmas.DeleteForAllIsDeleteSharedWith | src/main/java/io/finn/signald/db/SenderKeySharedTable.java:119-142 | `deleteForAll` and `deleteSharedWith` have identical effect and identical failure. |
| SenderKeySharedLemmas.DeleteForAllRevokesRecipient | src/main/java/io/finn/signald/db/SenderKeySharedTable.java:119-126 | After `deleteForAll(r)`, each distribution's holders are the previous ones minus exactly the devices named by `r`'s ACI. |
| SenderKeySharedLemmas.DeleteAccountComplete | src/main/java/io/finn/signald/db/SenderKeySharedTable.java:127-133 | After `deleteAccount(uuid)`, no distribution of `uuid` has holders, and every other account's rows are unchanged. |
| SenderKeySharedLemmas.InstanceMethodsScoped | src/main/java/io/finn/signald/db/SenderKeySharedTable.java:56-142 | No instance method, whether it succeeds or fails, adds or removes a row of an account other than the instance's `aci`. |
| SenderKeySharedLemmas.IntendedClearsScoped | src/main/java/io/finn/signald/db/SenderKeySharedTable.java:74-106 | The corrected revocations touch only the instance's account as well. |
| SenderKeySharedLemmas.MarkThenRevoke | src/main/java/io/finn/signald/db/SenderKeySharedTable.java:56-90 | Marking then revoking with the corrected statement gives (old holders plus marked) minus revoked. |
| SenderKeySharedLemmas.RevokeAcrossEveryDistribution | src/main/java/io/finn/signald/db/SenderKeySharedTable.java:92-106 | The corrected recipient-wide revocation removes the listed devices from the holders of every distribution. |
| SenderKeySharedLemmas.ClearWithDistributionMissesDevice | src/main/java/io/finn/signald/db/SenderKeySharedTable.java:79-82 | Concrete input: after marking D1 under dist-A, the as-written clear of D1 still reports D1 as a holder. The corrected clear does not. |
| SenderKeySharedLemmas.ClearWithDistributionHitsStranger | src/main/java/io/finn/signald/db/SenderKeySharedTable.java:79-82 | Concrete input: the as-written clear removes an unlisted row whose address column holds the distribution id's string. |
| SenderKeySharedLemmas.ClearAcrossMissesDevice | src/main/java/io/finn/signald/db/SenderKeySharedTable.java:96-99 | Concrete input: after marking D1, the as-written recipient-wide clear of D1 still reports it. The corrected clear removes it. |
| SenderKeySharedLemmas.ScenarioA1 | src/main/java/io/finn/signald/db/SenderKeySharedTable.java:35-117 | Mark {D1, D2}, then revoke D1, then rotate dist-A. With the corrected revoke the reported holders are {D1, D2}, then {D2}, then {}. With the revoke as written they are {D1, D2}, then still {D1, D2}, then {}. |
| Database.NewStore | src/main/java/io/finn/signald/db/Database.java:63-101 | A store built with kind `T` holds the fifteen table fields in order, all from family `T`. Each is bound to the store's account unless the table is account-wide. |
| Database.Scheme | src/main/java/io/finn/signald/db/Database.java:108-109 | The scheme is absent exactly when every colon of the URI comes after a '/', '?' or '#'. Otherwise it is the text before the first colon, which contains none of ':', '/', '?', '#'. |
| Database.SchemeIsPrefix | src/main/java/io/finn/signald/db/Database.java:108-109 | A `p` free of ':', '/', '?' and '#' is the scheme exactly when `p:` starts the URI. |
| Database.ParseKind | src/main/java/io/finn/signald/db/Database.java:107-118 | After dropping five characters, SQLITE results exactly when the rest starts with `sqlite:`, and POSTGRESQL exactly when it starts with `postgresql:`. A descriptor that is too short, or that has no scheme, is an error. |
| Database.GetConnectionType | src/main/java/io/finn/signald/db/Database.java:104-121 | A cached kind is returned with no state change. Otherwise the kind is parsed and cached on success. On failure the error is raised and the cache stays empty. |
| Database.Get | src/main/java/io/finn/signald/db/Database.java:37-44 | A cached account gets its instance back with no state change. Otherwise it succeeds exactly when `GetConnectionType` does, and one well-formed store of the kind that `GetConnectionType` returns is built, with the next serial, and cached. Other entries are unchanged, and the cache grows by at most `{aci}`. A failed resolution leaves the state unchanged. |
| Database.GetDefault | src/main/java/io/finn/signald/db/Database.java:36 | `Get()` behaves as `Get` of the unknown-UUID account. A cached store is returned with no state change. Otherwise it succeeds exactly when the kind resolves, and builds a well-formed store of that kind for the unknown UUID, with the next serial. A failure leaves the state unchanged, and other accounts' entries are kept. |
| Database.GetConn | src/main/java/io/finn/signald/db/Database.java:123-136 | An open connection is returned unchanged. Otherwise the kind is resolved as `GetConnectionType` resolves it. A new connection with the next serial is opened and stored, with credentials exactly when that kind is POSTGRESQL. Failures leave the slot unchanged. |
| Database.Close | src/main/java/io/finn/signald/db/Database.java:138-148 | Empties the kind and the connection, and leaves the instance cache and the counters unchanged. |
| DatabaseLemmas.InitialValid | src/main/java/io/finn/signald/db/Database.java:34 | The empty registry satisfies the registry invariant. |
| DatabaseLemmas.GetConnectionTypePreservesValid | src/main/java/io/finn/signald/db/Database.java:104-121 | Kind resolution keeps the registry invariant. |
| DatabaseLemmas.GetPreservesValid | src/main/java/io/finn/signald/db/Database.java:37-44 | `Get` keeps the invariant: each cached store belongs to its key and is well formed, and no two keys share an instance. |
| DatabaseLemmas.GetConnPreservesValid | src/main/java/io/finn/signald/db/Database.java:123-136 | `getConn` keeps the registry invariant. |
| DatabaseLemmas.ClosePreservesValid | src/main/java/io/finn/signald/db/Database.java:138-148 | `close` keeps the registry invariant. |
| DatabaseLemmas.GetStable | src/main/java/io/finn/signald/db/Database.java:37-44 | After a successful `Get(aci)`, any later `Get(aci)`, under any configuration, returns the identical instance and changes nothing. |
| DatabaseLemmas.GetConstructsAtMostOnce | src/main/java/io/finn/signald/db/Database.java:39-41 | One `Get` builds at most one store. It builds one exactly when `aci` was not cached and resolution succeeded. |
| DatabaseLemmas.GetRepeatedly | src/main/java/io/finn/signald/db/Database.java:37-44 | Across N successive `Get(aci)` calls, every returned store is the same instance, and at most one store is built. Other accounts' entries are unchanged. |
| DatabaseLemmas.KindStableUntilClose | src/main/java/io/finn/signald/db/Database.java:104-121 | Once a kind is cached, every call returns it or keeps it, whatever the configuration now says. A store built then has that kind. |
| DatabaseLemmas.OpenConnectionReused | src/main/java/io/finn/signald/db/Database.java:124-136 | An open connection is returned and nothing new is opened, on this call and on the next. |
| DatabaseLemmas.CloseKeepsInstances | src/main/java/io/finn/signald/db/Database.java:138-148 | After `close`, `Get` of a cached account returns the old instance without resolving the kind. |
| DatabaseLemmas.CloseThenReconfigureMixesFamilies | src/main/java/io/finn/signald/db/Database.java:37-44 | After `close` and a switch from SQLite to PostgreSQL, the old account keeps its SQLite store while a new account gets a PostgreSQL store. |
| DatabaseLemmas.PrefixNotChecked | src/main/java/io/finn/signald/db/Database.java:107 | Any five-character prefix resolves the same way, because the `jdbc:` prefix is dropped without being checked. |
| DatabaseLemmas.SqliteDescriptor | src/main/java/io/finn/signald/db/Database.java:110-112 | `jdbc:sqlite:` followed by any path that `URI.create` accepts resolves to SQLITE. |
| DatabaseLemmas.PostgresDescriptor | src/main/java/io/finn/signald/db/Database.java:113-115 | `jdbc:postgresql:` followed by any path that `URI.create` accepts resolves to POSTGRESQL. |
| DatabaseLemmas.OtherSchemeRejected | src/main/java/io/finn/signald/db/Database.java:116-118 | Any other scheme (free of ':', '/', '?' and '#') is rejected with an error naming it. |
| DatabaseLemmas.DelimiterBeforeColonIsNoScheme | src/main/java/io/finn/signald/db/Database.java:108-109 | When a '/', '?' or '#' comes before the first colon (as in `jdbc:/tmp:x`), there is no scheme, and the switch fails on null instead of reporting an invalid scheme. |
| DatabaseLemmas.StoreTablesFromOneFamily | src/main/java/io/finn/signald/db/Database.java:63-101 | In a well-formed store, all tables share one family, each of the fifteen fields is present, and no field appears twice. |

## Left out

- Latency histograms and debug logging in `executeQuery`, `executeUpdate` and
  `executeBatch` (`Database.java:178-224`) have no effect on the data. The
  statement functions carry out the statement and nothing else.
  `getGeneratedKeys` is not used by the tracker and is not modelled.
- SQL text, JDBC and `DriverManager` are not modelled. A statement is its WHERE
  clause or its row list.
- Database.Scheme: URI syntax checking beyond finding the scheme is left out.
  A descriptor that `URI.create` would reject (a space, a scheme that does not
  start with a letter, an empty scheme) resolves here by its scheme, or by
  `InvalidScheme("")` when it starts with a colon. In the source these raise
  `IllegalArgumentException` from `URI.create`.
- DatabaseLemmas.SqliteDescriptor: holds in the source only for paths that
  `URI.create` accepts. The in-memory descriptor `jdbc:sqlite:` (empty path,
  "Expected scheme-specific part") and a path containing a space ("Illegal
  character") raise in `URI.create`, but the model resolves them to SQLITE.
- DatabaseLemmas.PostgresDescriptor: holds in the source only for paths that
  `URI.create` accepts, for the same reason.
- DatabaseLemmas.OtherSchemeRejected: this holds only for schemes that
  `URI.create` accepts. A scheme that breaks the URI scheme syntax makes
  `URI.create` raise instead.
- SenderKeyShared.GetSenderKeySharedWith: an `SQLException` raised while the
  rows are being read (`rows.next`, `getString`, `getInt`) returns the addresses
  read so far, not the empty set. The model treats a failure as happening before
  any row is read. The first ensures, which holds in every case, still rules out
  a device that has no row.
- The tracker's methods assume the backend kind resolves. `getConn` calls
  `GetConnectionType` (`Database.java:126`), and after `close()` with an invalid
  descriptor this raises unchecked exceptions (`StringIndexOutOfBoundsException`,
  `NullPointerException`, `IllegalArgumentException`). Those escape the tracker's
  `catch (SQLException e)` (`SenderKeySharedTable.java:50, 69, 87, 103`), even in
  the methods that otherwise swallow errors. `Backend` models only
  `SQLException`. The registry model (`Database.GetConn`) does include these
  failures.
- `DeleteAccount` and `NewServer` (`Database.java:151-175`) only pass calls on to
  table classes that are not part of this model.
- `isMultiDevice` reads a foreign `Account` object, so it is left out.
- The `synchronized` block in `Get` is not modelled, because the model is
  sequential. Single construction is stated for successive calls
  (`DatabaseLemmas.GetRepeatedly`).
- If the driver partly executed a failed batch, those row-level effects are not
  modelled. A failed batch is an error as a whole. When the method swallows the
  error, the table is unchanged.
- The connection being closed by something else is represented by the `open`
  field of the connection in the given state. Closing the connection inside
  `close()`, and a failure while closing, are not tracked, because `close()`
  then drops the connection either way.
- The `default` branch of the constructor's switch is left out. `Kind` has
  exactly two values, so it cannot be reached.
- `ProtocolLogger` is a logging adapter with no logic.
- Device ids are Java `int`s. They are only stored and compared, never
  computed, so 32-bit wrap-around does not matter.
- An unbound JDBC parameter either makes the driver refuse the statement (the
  error is caught) or reads as SQL NULL (no row matches). `Backend.rejectsUnbound`
  chooses which. Both lead to the same table.

## Findings

| source | as written | input that shows it | evidently intended | confidence | as-written member | corrected member |
|---|---|---|---|---|---|---|
| src/main/java/io/finn/signald/db/SenderKeySharedTable.java:80 | parameter 2 (address) is set to `distributionId.toString()` | table with row (A1, "+15550001", 1, dist-A); `clearSenderKeySharedWith(dist-A, [("+15550001", 1)])` leaves the row, and the device is still reported as a holder | parameter 2 set to `address.getName()` | high; not executed | SenderKeySharedLemmas.ClearWithDistributionMissesDevice | SenderKeyShared.ClearSenderKeySharedWithIntended |
| src/main/java/io/finn/signald/db/SenderKeySharedTable.java:96-99 | parameter 2 (address) is never set | same table; `clearSenderKeySharedWith([("+15550001", 1)])` leaves the row (the driver either rejects the statement, with the error swallowed, or compares with NULL) | parameter 2 set to `address.getName()` | high; not executed | SenderKeySharedLemmas.ClearAcrossMissesDevice | SenderKeyShared.ClearSenderKeySharedWithAcrossIntended |

=== FILE: database.dfy ===
/**
  The process-wide store registry of `Database`: a cache from account ACI to its
  store, the lazily resolved backend kind, and the shared connection slot.

  The static fields of the class become one immutable `State`; every static
  method that can raise is a function from a state (and the configuration it
  reads) to a `Step`: the value returned or the exception raised, together with the state
  left behind, which a raised exception does not roll back. Object identity is
  made observable by numbering stores and connections in construction order.
 */
module Database {
  import opened Outcomes

  /** `Database.Type`: the two backend families. */
  datatype Kind = Sqlite | Postgresql

  /** The fifteen table fields of a store. */
  datatype TableName =
    | AccountData | Accounts | Contacts | GroupCredentials | GroupsTable
    | IdentityKeys | MessageQueue | PendingAccountData | PreKeys | Recipients
    | SenderKeyShared | SenderKeys | Servers | Sessions | SignedPreKeys

  /** The table fields in declaration order. */
  const Declared: seq<TableName> := [
    AccountData, Accounts, Contacts, GroupCredentials, GroupsTable,
    IdentityKeys, MessageQueue, PendingAccountData, PreKeys, Recipients,
    SenderKeyShared, SenderKeys, Servers, Sessions, SignedPreKeys]

  /** Where a table field stands in declaration order. */
  function Position(n: TableName): (i: nat)
    ensures i < |Declared| && Declared[i] == n
  {
    match n
    case AccountData => 0
    case Accounts => 1
    case Contacts => 2
    case GroupCredentials => 3
    case GroupsTable => 4
    case IdentityKeys => 5
    case MessageQueue => 6
    case PendingAccountData => 7
    case PreKeys => 8
    case Recipients => 9
    case SenderKeyShared => 10
    case SenderKeys => 11
    case Servers => 12
    case Sessions => 13
    case SignedPreKeys => 14
  }

  /** Tables whose constructor takes no account: they are shared by all accounts. */
  predicate AccountWide(n: TableName)
  {
    n == AccountData || n == Accounts || n == PendingAccountData || n == Servers
  }

  /** One table object: which family's class it is an instance of, and the
      account passed to its constructor, if any. */
  datatype TableHandle = TableHandle(name: TableName, family: Kind, owner: Option<string>)

  /** One `Database` instance. `serial` numbers constructions, so two stores are the
      same object exactly when they are equal. */
  datatype Store = Store(serial: nat, aci: string, kind: Kind, tables: seq<TableHandle>)

  /** A store whose tables are the fifteen fields, in order, all of the store's
      family, each bound to the store's account unless it is account-wide. */
  ghost predicate WellFormed(s: Store)
  {
    && |s.tables| == |Declared|
    && forall i :: 0 <= i < |s.tables| ==>
         && s.tables[i].name == Declared[i]
         && s.tables[i].family == s.kind
         && s.tables[i].owner == (if AccountWide(Declared[i]) then None else Some(s.aci))
  }

  /** The private constructor: every table from the family of `kind`. */
  function NewStore(serial: nat, aci: string, kind: Kind): (s: Store)
    ensures s.serial == serial && s.aci == aci && s.kind == kind
    ensures WellFormed(s)
  {
    var tables := seq(|Declared|, i requires 0 <= i < |Declared| =>
      TableHandle(Declared[i], kind, if AccountWide(Declared[i]) then None else Some(aci)));
    Store(serial, aci, kind, tables)
  }

  datatype Credentials = Credentials(user: string, password: string)

  /** One JDBC connection; `open` is false once something has closed it. */
  datatype Connection = Connection(serial: nat, url: string, credentials: Option<Credentials>, open: bool)

  /** The configuration values `Database` reads. */
  datatype Config = Config(db: string, dbUser: string, dbPassword: string)

  datatype DbError =
    | DescriptorTooShort          // `substring(5)` of a shorter descriptor
    | NoScheme                    // the URI has no scheme; the switch on null fails
    | InvalidScheme(scheme: string)
    | ConnectFailed               // `DriverManager.getConnection` raised

  /** The static fields of `Database`, plus construction counters. */
  datatype State = State(
    instances: map<string, Store>,
    connectionType: Option<Kind>,
    conn: Option<Connection>,
    storesBuilt: nat,
    connsOpened: nat)

  /** What a static method returns or raises, and the state it leaves. */
  datatype Step<T> = Step(result: Result<T, DbError>, next: State)

  const Initial := State(map[], None, None, 0, 0)

  /** The string form of `UuidUtil.UNKNOWN_UUID`. */
  const UnknownUuid := "00000000-0000-0000-0000-000000000000"

  /** The characters that end the part of a URI where a scheme may stand. */
  predicate Delimiter(c: char)
  {
    c == '/' || c == '?' || c == '#'
  }

  /** `URI.getScheme()`: the text before the first colon, provided no '/', '?' or
      '#' comes before that colon; otherwise the URI has no scheme. */
  function Scheme(uri: string): (r: Option<string>)
    ensures r.None? <==> forall i :: 0 <= i < |uri| && uri[i] == ':' ==> exists j :: 0 <= j < i && Delimiter(uri[j])
    ensures r.Some? ==> |r.value| < |uri| && uri[..|r.value|] == r.value && uri[|r.value|] == ':'
    ensures r.Some? ==> forall c :: c in r.value ==> c != ':' && !Delimiter(c)
  {
    if |uri| == 0 then None
    else if uri[0] == ':' then Some("")
    else if Delimiter(uri[0]) then None
    else
      var tail := uri[1..];
      assert forall i :: 1 <= i < |uri| ==> uri[i] == tail[i - 1];
      match Scheme(tail)
      case None =>
        assert forall i :: 0 <= i < |uri| && uri[i] == ':' ==> exists j :: 0 <= j < i && Delimiter(uri[j]) by {
          forall i | 0 <= i < |uri| && uri[i] == ':' ensures exists j :: 0 <= j < i && Delimiter(uri[j]) {
            var j :| 0 <= j < i - 1 && Delimiter(tail[j]);
            assert Delimiter(uri[j + 1]);
          }
        }
        None
      case Some(p) =>
        var s := [uri[0]] + p;
        assert uri[..|s|] == s by {
          assert uri == [uri[0]] + tail;
        }
        assert !(exists j :: 0 <= j < |s| && Delimiter(uri[j])) by {
          forall j | 0 <= j < |s| ensures !Delimiter(uri[j]) {
            if j > 0 { assert uri[j] == p[j - 1] && p[j - 1] in p; }
          }
        }
        Some(s)
  }

  /** A `p` free of ':', '/', '?' and '#' is the scheme exactly when `p` followed by
      a colon starts the URI. */
  lemma SchemeIsPrefix(uri: string, p: string)
    requires forall c :: c in p ==> c != ':' && !Delimiter(c)
    ensures Scheme(uri) == Some(p) <==> p + ":" <= uri
  {
    if Scheme(uri) == Some(p) {
      assert uri[..|p| + 1] == p + ":";
    }
    if p + ":" <= uri {
      assert uri[|p|] == ':';
      assert forall i :: 0 <= i < |p| ==> uri[i] != ':' && !Delimiter(uri[i]) by {
        forall i | 0 <= i < |p| ensures uri[i] != ':' && !Delimiter(uri[i]) {
          assert uri[i] == p[i] && p[i] in p;
        }
      }
      assert Scheme(uri).Some?;
      var v := Scheme(uri).value;
      assert forall i :: 0 <= i < |v| ==> uri[i] != ':' by {
        forall i | 0 <= i < |v| ensures uri[i] != ':' {
          assert uri[i] == v[i] && v[i] in v;
        }
      }
      assert |v| == |p|;
      assert v == uri[..|p|];
      assert p == uri[..|p|];
    }
  }

  /** The scheme dispatch of `GetConnectionType`: drop the first five characters
      (the `jdbc:` prefix, which is not checked), then switch on the URI scheme. */
  function ParseKind(db: string): (r: Result<Kind, DbError>)
    ensures r == Success(Sqlite) <==> |db| >= 5 && "sqlite:" <= db[5..]
    ensures r == Success(Postgresql) <==> |db| >= 5 && "postgresql:" <= db[5..]
    ensures |db| < 5 ==> r == Failure(DescriptorTooShort)
    ensures |db| >= 5 && ':' !in db[5..] ==> r == Failure(NoScheme)
  {
    if |db| < 5 then Failure(DescriptorTooShort)
    else
      var uri := db[5..];
      SchemeIsPrefix(uri, "sqlite");
      SchemeIsPrefix(uri, "postgresql");
      match Scheme(uri)
      case None => Failure(NoScheme)
      case Some(s) =>
        if s == "sqlite" then Success(Sqlite)
        else if s == "postgresql" then Success(Postgresql)
        else Failure(InvalidScheme(s))
  }

  /** `GetConnectionType`: the cached kind, or resolve and cache it. An invalid
      descriptor raises and leaves the cache empty. */
  function GetConnectionType(st: State, cfg: Config): (s: Step<Kind>)
    ensures st.connectionType.Some? ==> s == Step(Success(st.connectionType.value), st)
    ensures st.connectionType.None? ==> s.result == ParseKind(cfg.db)
    ensures s.result.Success? ==> s.next == st.(connectionType := Some(s.result.value))
    ensures s.result.Failure? ==> s.next == st
  {
    match st.connectionType
    case Some(k) => Step(Success(k), st)
    case None =>
      match ParseKind(cfg.db)
      case Success(k) => Step(Success(k), st.(connectionType := Some(k)))
      case Failure(e) => Step(Failure(e), st)
  }

  /** `Get(aci)`: the cached store of `aci`, or a new one of the resolved kind,
      constructed and cached only when `aci` is absent. */
  function Get(st: State, cfg: Config, aci: string): (s: Step<Store>)
    ensures aci in st.instances ==> s == Step(Success(st.instances[aci]), st)
    ensures aci !in st.instances && s.result.Success? ==>
      && s.result.value.serial == st.storesBuilt
      && s.result.value.aci == aci
      && WellFormed(s.result.value)
      && s.next.connectionType == Some(s.result.value.kind)
      && (st.connectionType.Some? ==> s.result.value.kind == st.connectionType.value)
      && s.next.storesBuilt == st.storesBuilt + 1
    ensures aci !in st.instances && s.result.Failure? ==> s.next == st && st.connectionType.None?
    ensures aci !in st.instances ==> (s.result.Success? <==> GetConnectionType(st, cfg).result.Success?)
    ensures aci !in st.instances && s.result.Success? ==>
      s.result.value.kind == GetConnectionType(st, cfg).result.value
    ensures s.result.Success? ==> aci in s.next.instances && s.next.instances[aci] == s.result.value
    ensures st.instances.Keys <= s.next.instances.Keys <= st.instances.Keys + {aci}
    ensures forall a :: a in st.instances ==> s.next.instances[a] == st.instances[a]
    ensures s.next.conn == st.conn && s.next.connsOpened == st.connsOpened
  {
    if aci in st.instances then Step(Success(st.instances[aci]), st)
    else
      match GetConnectionType(st, cfg)
      case Step(Failure(e), n) => Step(Failure(e), n)
      case Step(Success(k), n) =>
        var store := NewStore(n.storesBuilt, aci, k);
        Step(Success(store), n.(instances := n.instances[aci := store], storesBuilt := n.storesBuilt + 1))
  }

  /** `Get()`: the store of the unknown-UUID account, with all the caching of
      `Get(aci)`. */
  function GetDefault(st: State, cfg: Config): (s: Step<Store>)
    ensures s.result.Success? ==>
      && UnknownUuid in s.next.instances
      && s.next.instances[UnknownUuid] == s.result.value
    ensures UnknownUuid in st.instances ==> s == Step(Success(st.instances[UnknownUuid]), st)
    ensures UnknownUuid !in st.instances ==> (s.result.Success? <==> GetConnectionType(st, cfg).result.Success?)
    ensures UnknownUuid !in st.instances && s.result.Success? ==>
      && s.result.value.aci == UnknownUuid
      && s.result.value.kind == GetConnectionType(st, cfg).result.value
      && s.result.value.serial == st.storesBuilt
      && WellFormed(s.result.value)
    ensures s.result.Failure? ==> s.next == st
    ensures st.instances.Keys <= s.next.instances.Keys <= st.instances.Keys + {UnknownUuid}
    ensures forall a :: a in st.instances ==> s.next.instances[a] == st.instances[a]
  {
    Get(st, cfg, UnknownUuid)
  }

  /** `getConn`: the current connection if there is one and it is open; otherwise
      resolve the kind and open a new one, with credentials only for PostgreSQL.
      `reachable` says whether `DriverManager.getConnection` succeeds. */
  function GetConn(st: State, cfg: Config, reachable: bool): (s: Step<Connection>)
    ensures st.conn.Some? && st.conn.value.open ==> s == Step(Success(st.conn.value), st)
    ensures !(st.conn.Some? && st.conn.value.open) && s.result.Success? ==>
      && s.result.value == Connection(st.connsOpened, cfg.db, s.result.value.credentials, true)
      && s.next.conn == Some(s.result.value)
      && s.next.connsOpened == st.connsOpened + 1
      && s.next.connectionType.Some?
      && (s.result.value.credentials.Some? <==> s.next.connectionType == Some(Postgresql))
      && (s.result.value.credentials.Some? ==> s.result.value.credentials.value == Credentials(cfg.dbUser, cfg.dbPassword))
    ensures !(st.conn.Some? && st.conn.value.open) ==>
      s.next.connectionType == GetConnectionType(st, cfg).next.connectionType
    ensures !(st.conn.Some? && st.conn.value.open) && s.result.Success? ==>
      (s.result.value.credentials.Some? <==> GetConnectionType(st, cfg).result == Success(Postgresql))
    ensures s.result.Failure? ==> s.next.conn == st.conn && s.next.connsOpened == st.connsOpened
    ensures s.result.Failure? <==>
      !(st.conn.Some? && st.conn.value.open) && (GetConnectionType(st, cfg).result.Failure? || !reachable)
    ensures st.connectionType.Some? ==> s.next.connectionType == st.connectionType
    ensures s.next.instances == st.instances && s.next.storesBuilt == st.storesBuilt
  {
    if st.conn.Some? && st.conn.value.open then Step(Success(st.conn.value), st)
    else
      match GetConnectionType(st, cfg)
      case Step(Failure(e), n) => Step(Failure(e), n)
      case Step(Success(k), n) =>
        if !reachable then Step(Failure(ConnectFailed), n)
        else
          var creds := match k
            case Sqlite => None
            case Postgresql => Some(Credentials(cfg.dbUser, cfg.dbPassword));
          var c := Connection(n.connsOpened, cfg.db, creds, true);
          Step(Success(c), n.(conn := Some(c), connsOpened := n.connsOpened + 1))
  }

  /** `close`: close the connection (a failure to close is logged and ignored), then
      forget the kind and the connection. The store cache is kept. */
  function Close(st: State): (r: State)
    ensures r.connectionType.None? && r.conn.None?
    ensures r.instances == st.instances
    ensures r.storesBuilt == st.storesBuilt && r.connsOpened == st.connsOpened
  {
    st.(connectionType := None, conn := None)
  }
}

=== FILE: database_lemmas.dfy ===
/**
  Properties of the store registry over sequences of calls: the registry
  invariant, single construction per account, stability of the resolved kind
  until `close`, and what `close` leaves behind.
 */
module DatabaseLemmas {
  import opened Outcomes
  import opened Database

  /** The registry invariant: every cached store belongs to its key, is well formed
      and was built by an earlier construction; no two keys share one store; the
      connection, if any, was opened earlier. */
  ghost predicate Valid(st: State)
  {
    && (forall a :: a in st.instances ==>
          && st.instances[a].aci == a
          && WellFormed(st.instances[a])
          && st.instances[a].serial < st.storesBuilt)
    && (forall a, b :: a in st.instances && b in st.instances && a != b ==>
          st.instances[a].serial != st.instances[b].serial)
    && (st.conn.Some? ==> st.conn.value.serial < st.connsOpened)
  }

  lemma InitialValid()
    ensures Valid(Initial)
  {
  }

  /** Resolving the kind keeps the registry invariant. */
  lemma GetConnectionTypePreservesValid(st: State, cfg: Config)
    requires Valid(st)
    ensures Valid(GetConnectionType(st, cfg).next)
  {
  }

  /** `Get(aci)` keeps the registry invariant, whether it returns or raises: the
      new store gets a serial no cached store has. */
  lemma GetPreservesValid(st: State, cfg: Config, aci: string)
    requires Valid(st)
    ensures Valid(Get(st, cfg, aci).next)
  {
  }

  /** `getConn` keeps the registry invariant. */
  lemma GetConnPreservesValid(st: State, cfg: Config, reachable: bool)
    requires Valid(st)
    ensures Valid(GetConn(st, cfg, reachable).next)
  {
  }

  /** `close` keeps the registry invariant. */
  lemma ClosePreservesValid(st: State)
    requires Valid(st)
    ensures Valid(Close(st))
  {
  }

  /** Once `Get(aci)` has returned a store, every later `Get(aci)` returns that same
      store and changes nothing, whatever the configuration says by then. */
  lemma GetStable(st: State, cfg: Config, later: Config, aci: string)
    requires Get(st, cfg, aci).result.Success?
    ensures Get(Get(st, cfg, aci).next, later, aci)
         == Step(Get(st, cfg, aci).result, Get(st, cfg, aci).next)
  {
  }

  /** A call of `Get(aci)` constructs at most one store, and one exactly when `aci`
      was not cached and the kind could be resolved. */
  lemma GetConstructsAtMostOnce(st: State, cfg: Config, aci: string)
    ensures Get(st, cfg, aci).next.storesBuilt <= st.storesBuilt + 1
    ensures Get(st, cfg, aci).next.storesBuilt == st.storesBuilt + 1 <==>
      aci !in st.instances && Get(st, cfg, aci).result.Success?
  {
  }

  /** N successive `Get(aci)` calls: every store returned is the same one, and at
      most one store is constructed. */
  method GetRepeatedly(st: State, cfgs: seq<Config>, aci: string)
    returns (results: seq<Result<Store, DbError>>, final: State)
    ensures |results| == |cfgs|
    ensures forall i, j :: 0 <= i < |results| && 0 <= j < |results| && results[i].Success? && results[j].Success? ==>
      results[i].value == results[j].value
    ensures aci in st.instances ==> forall i :: 0 <= i < |results| ==> results[i] == Success(st.instances[aci])
    ensures final.storesBuilt <= st.storesBuilt + 1
    ensures st.instances.Keys <= final.instances.Keys <= st.instances.Keys + {aci}
    ensures forall a :: a in st.instances ==> final.instances[a] == st.instances[a]
  {
    results := [];
    final := st;
    var k := 0;
    while k < |cfgs|
      invariant 0 <= k <= |cfgs| && |results| == k
      invariant st.instances.Keys <= final.instances.Keys <= st.instances.Keys + {aci}
      invariant forall a :: a in st.instances ==> final.instances[a] == st.instances[a]
      invariant aci !in final.instances ==> final.storesBuilt == st.storesBuilt
      invariant aci !in final.instances ==> forall i :: 0 <= i < k ==> results[i].Failure?
      invariant aci in final.instances ==> final.storesBuilt <= st.storesBuilt + 1
      invariant aci in final.instances ==> forall i :: 0 <= i < k && results[i].Success? ==>
        results[i].value == final.instances[aci]
      invariant aci in st.instances ==> forall i :: 0 <= i < k ==> results[i] == Success(st.instances[aci])
    {
      var step := Get(final, cfgs[k], aci);
      results := results + [step.result];
      final := step.next;
      k := k + 1;
    }
  }

  /** Until `close`, the resolved kind never changes: no call resolves again, and
      `GetConnectionType` returns it whatever the configuration now says. */
  lemma KindStableUntilClose(st: State, cfg: Config, aci: string, reachable: bool)
    requires st.connectionType.Some?
    ensures GetConnectionType(st, cfg) == Step(Success(st.connectionType.value), st)
    ensures Get(st, cfg, aci).next.connectionType == st.connectionType
    ensures GetConn(st, cfg, reachable).next.connectionType == st.connectionType
    ensures Get(st, cfg, aci).result.Success? && aci !in st.instances ==>
      Get(st, cfg, aci).result.value.kind == st.connectionType.value
  {
  }

  /** An open connection is reused: `getConn` returns it and opens nothing. */
  lemma OpenConnectionReused(st: State, cfg: Config, reachable: bool)
    requires st.conn.Some? && st.conn.value.open
    ensures GetConn(st, cfg, reachable) == Step(Success(st.conn.value), st)
    ensures GetConn(GetConn(st, cfg, reachable).next, cfg, reachable).result == Success(st.conn.value)
  {
  }

  /** `close` forgets the kind and the connection but not the stores: a cached
      account gets its old store back, without resolving the kind, even when the
      configuration has since become invalid or names the other backend. */
  lemma CloseKeepsInstances(st: State, cfg: Config, aci: string)
    requires aci in st.instances
    ensures Get(Close(st), cfg, aci) == Step(Success(st.instances[aci]), Close(st))
    ensures Close(st).connectionType.None?
  {
  }

  /** Reconfiguring through `close` gives stores of two different families side by
      side: an account cached before `close` keeps its SQLite store while a new
      account gets a PostgreSQL one. */
  lemma CloseThenReconfigureMixesFamilies(sqlitePath: string, postgresPath: string, a1: string, a2: string)
    requires a1 != a2
    ensures var s1 := Get(Initial, Config("jdbc:sqlite:" + sqlitePath, "", ""), a1);
      var pg := Config("jdbc:postgresql:" + postgresPath, "u", "p");
      var s2 := Get(Close(s1.next), pg, a1);
      var s3 := Get(s2.next, pg, a2);
      && s1.result.Success? && s1.result.value.kind == Sqlite
      && s2.result == s1.result
      && s3.result.Success? && s3.result.value.kind == Postgresql
  {
    var lite := Config("jdbc:sqlite:" + sqlitePath, "", "");
    var pg := Config("jdbc:postgresql:" + postgresPath, "u", "p");
    SqliteDescriptor(sqlitePath);
    PostgresDescriptor(postgresPath);
    var s1 := Get(Initial, lite, a1);
    assert s1.result.Success? && s1.result.value.kind == Sqlite;
    CloseKeepsInstances(s1.next, pg, a1);
    var s2 := Get(Close(s1.next), pg, a1);
    assert s2.next.connectionType.None? && a2 !in s2.next.instances;
  }

  /** The first five characters of the descriptor are dropped without being looked
      at: any five-character prefix resolves like `jdbc:`. */
  lemma PrefixNotChecked(p: string, q: string, rest: string)
    requires |p| == 5 && |q| == 5
    ensures ParseKind(p + rest) == ParseKind(q + rest)
  {
  }

  /** A `jdbc:sqlite:` descriptor resolves to SQLite. */
  lemma SqliteDescriptor(path: string)
    ensures ParseKind("jdbc:sqlite:" + path) == Success(Sqlite)
  {
  }

  /** A `jdbc:postgresql:` descriptor resolves to PostgreSQL. */
  lemma PostgresDescriptor(path: string)
    ensures ParseKind("jdbc:postgresql:" + path) == Success(Postgresql)
  {
  }

  /** Any other scheme is rejected, naming the scheme. */
  lemma OtherSchemeRejected(scheme: string, path: string)
    requires forall c :: c in scheme ==> c != ':' && !Delimiter(c)
    requires scheme != "sqlite" && scheme != "postgresql"
    ensures ParseKind("jdbc:" + scheme + ":" + path) == Failure(InvalidScheme(scheme))
  {
    var db := "jdbc:" + scheme + ":" + path;
    assert db[5..] == scheme + ":" + path;
    SchemeIsPrefix(db[5..], scheme);
    assert scheme + ":" <= db[5..];
  }

  /** A '/', '?' or '#' before the first colon means there is no scheme at all, so
      the switch fails on null rather than reporting an invalid scheme: this is the
      case of `jdbc:/tmp:x`. */
  lemma DelimiterBeforeColonIsNoScheme(text: string, path: string)
    requires ':' !in text && exists c :: c in text && Delimiter(c)
    ensures ParseKind("jdbc:" + text + ":" + path) == Failure(NoScheme)
  {
    var uri := text + ":" + path;
    assert ("jdbc:" + text + ":" + path)[5..] == uri;
    var c :| c in text && Delimiter(c);
    var k :| 0 <= k < |text| && text[k] == c;
    assert forall m :: 0 <= m < |text| ==> uri[m] == text[m] && text[m] in text;
    assert uri[k] == c;
  }

  /** Every table of a well-formed store comes from the store's family, and each
      of the fifteen table fields is present exactly once. */
  lemma StoreTablesFromOneFamily(s: Store, n: TableName)
    requires WellFormed(s)
    ensures forall i, j :: 0 <= i < |s.tables| && 0 <= j < |s.tables| ==> s.tables[i].family == s.tables[j].family
    ensures exists i :: 0 <= i < |s.tables| && s.tables[i].name == n && s.tables[i].family == s.kind
    ensures forall i, j :: 0 <= i < j < |s.tables| ==> s.tables[i].name != s.tables[j].name
  {
    var i := Position(n);
    assert s.tables[i].name == n;
  }
}

=== FILE: outcomes.dfy ===
/** Failure-carrying result types shared by the persistence model. */
module Outcomes {

  /** A value that may be absent, as `java.util.Optional` or a nullable field. */
  datatype Option<+T> = None | Some(value: T)

  /** The outcome of an operation that either returns a value or raises. */
  datatype Result<+T, +E> = Success(value: T) | Failure(error: E)
}

=== FILE: sender_key_shared.dfy ===
/**
  The sender-key "shared with" tracker of one local account (`SenderKeySharedTable`).

  A row `(account, address, device, distribution)` records that the device
  `(address, device)` holds the sender key of distribution `distribution` sent
  by local account `account`. Each instance method is a pure transition on the
  whole table, scoped to the instance's account `aci`; the static
  `deleteAccount` takes the account as a parameter.

  Methods that catch `SQLException` and log it return the table unchanged (or
  the empty set) when the backend fails; methods declared `throws SQLException`
  return a `Result`.

  The two `clearSenderKeySharedWith` overloads are modelled as written, with
  their parameter-binding mistakes; the `...Intended` functions state what the
  statements evidently meant to do.
 */
module SenderKeyShared {
  import opened Outcomes
  import opened Statements

  /** A `SignalProtocolAddress`: a participant name and one of its device ids. */
  datatype Address = Address(name: string, deviceId: int)

  /** A contact; only the string form of its ACI is used by the tracker. */
  datatype Recipient = Recipient(aci: string)

  /** Whether a device of `addrs` carries device id `device`, whatever its name. */
  ghost predicate DeviceListed(addrs: seq<Address>, device: int)
  {
    exists a :: a in addrs && a.deviceId == device
  }

  /** `getSenderKeySharedWith`: the devices holding distribution `d` of account `aci`.
      A failed query is logged and answered with the empty set. Whatever happens,
      no device is reported that does not hold the key. */
  function GetSenderKeySharedWith(t: Table, aci: string, d: string, db: Backend): (r: set<Address>)
    ensures forall a: Address :: a in r ==> Row(aci, a.name, a.deviceId, d) in t
    ensures db.available ==> forall a: Address :: a in r <==> Row(aci, a.name, a.deviceId, d) in t
    ensures !db.available ==> r == {}
  {
    match ExecuteQuery(t, Where(Is(aci), AnyValue, AnyValue, Is(d)), db)
    case Success(rows) =>
      var found := set row | row in rows :: Address(row.address, row.device);
      assert forall a: Address :: Row(aci, a.name, a.deviceId, d) in t ==> a in found by {
        forall a: Address | Row(aci, a.name, a.deviceId, d) in t ensures a in found {
          var row := Row(aci, a.name, a.deviceId, d);
          assert row in rows;
        }
      }
      found
    case Failure(_) => {}
  }

  /** The rows `markSenderKeySharedWith` inserts, one per address, in order. */
  function SharedRows(aci: string, d: string, addrs: seq<Address>): (rows: seq<Row>)
    ensures |rows| == |addrs|
    ensures forall i :: 0 <= i < |addrs| ==> rows[i] == Row(aci, addrs[i].name, addrs[i].deviceId, d)
  {
    seq(|addrs|, i requires 0 <= i < |addrs| => Row(aci, addrs[i].name, addrs[i].deviceId, d))
  }

  /** `markSenderKeySharedWith`: one INSERT OR REPLACE per address in one batch.
      A failed batch is logged and leaves the table as it was. */
  function MarkSenderKeySharedWith(t: Table, aci: string, d: string, addrs: seq<Address>, db: Backend): (r: Table)
    ensures db.available ==> forall row :: row in r <==>
      row in t || (row.account == aci && row.distribution == d && Address(row.address, row.device) in addrs)
    ensures !db.available ==> r == t
  {
    var rows := SharedRows(aci, d, addrs);
    assert forall row :: row in rows <==>
      (row.account == aci && row.distribution == d && Address(row.address, row.device) in addrs) by {
      forall row ensures row in rows <==>
        (row.account == aci && row.distribution == d && Address(row.address, row.device) in addrs) {
        if row.account == aci && row.distribution == d && Address(row.address, row.device) in addrs {
          var i :| 0 <= i < |addrs| && addrs[i] == Address(row.address, row.device);
          assert rows[i] == row;
        }
      }
    }
    match ExecuteInsertBatch(t, rows, db)
    case Success(t') => t'
    case Failure(_) => t
  }

  /** The batch `clearSenderKeySharedWith(distributionId, addresses)` executes: the
      distribution id is bound into the address slot (parameter 2) as well as the
      distribution slot (parameter 4), and the address name is never used. */
  function ClearWithDistributionBatch(aci: string, d: string, addrs: seq<Address>): (ws: seq<Where>)
    ensures |ws| == |addrs|
    ensures forall i :: 0 <= i < |ws| ==> ws[i] == Where(Is(aci), Is(d), Is(addrs[i].deviceId), Is(d))
  {
    seq(|addrs|, i requires 0 <= i < |addrs| => Where(Is(aci), Is(d), Is(addrs[i].deviceId), Is(d)))
  }

  /** `clearSenderKeySharedWith(distributionId, addresses)` as written: it removes only
      rows whose address column equals the distribution id's string. */
  function ClearSenderKeySharedWith(t: Table, aci: string, d: string, addrs: seq<Address>, db: Backend): (r: Table)
    ensures db.available ==> forall row :: row in r <==>
      row in t && !(row.account == aci && row.address == d && row.distribution == d && DeviceListed(addrs, row.device))
    ensures !db.available ==> r == t
  {
    var ws := ClearWithDistributionBatch(aci, d, addrs);
    assert forall row :: SelectedByAny(ws, row) <==>
      (row.account == aci && row.address == d && row.distribution == d && DeviceListed(addrs, row.device)) by {
      forall row ensures SelectedByAny(ws, row) <==>
        (row.account == aci && row.address == d && row.distribution == d && DeviceListed(addrs, row.device)) {
        if DeviceListed(addrs, row.device) {
          var a :| a in addrs && a.deviceId == row.device;
          var i :| 0 <= i < |addrs| && addrs[i] == a;
          assert ws[i].Selects(row) <==> row.account == aci && row.address == d && row.distribution == d;
        }
        if SelectedByAny(ws, row) {
          var i :| 0 <= i < |ws| && ws[i].Selects(row);
          assert addrs[i] in addrs;
        }
      }
    }
    match ExecuteDeleteBatch(t, ws, db)
    case Success(t') => t'
    case Failure(_) => t
  }

  /** What `clearSenderKeySharedWith(distributionId, addresses)` evidently means:
      remove each listed device under distribution `d`. */
  function ClearSenderKeySharedWithIntended(t: Table, aci: string, d: string, addrs: seq<Address>, db: Backend): (r: Table)
    ensures db.available ==> forall row :: row in r <==>
      row in t && !(row.account == aci && row.distribution == d && Address(row.address, row.device) in addrs)
    ensures !db.available ==> r == t
  {
    var ws := seq(|addrs|, i requires 0 <= i < |addrs| => Where(Is(aci), Is(addrs[i].name), Is(addrs[i].deviceId), Is(d)));
    assert forall row :: SelectedByAny(ws, row) <==>
      (row.account == aci && row.distribution == d && Address(row.address, row.device) in addrs) by {
      forall row ensures SelectedByAny(ws, row) <==>
        (row.account == aci && row.distribution == d && Address(row.address, row.device) in addrs) {
        if Address(row.address, row.device) in addrs {
          var i :| 0 <= i < |addrs| && addrs[i] == Address(row.address, row.device);
          assert ws[i].Selects(row) <==> row.account == aci && row.distribution == d;
        }
        if SelectedByAny(ws, row) {
          var i :| 0 <= i < |ws| && ws[i].Selects(row);
          assert addrs[i] == Address(row.address, row.device);
        }
      }
    }
    match ExecuteDeleteBatch(t, ws, db)
    case Success(t') => t'
    case Failure(_) => t
  }

  /** The batch `clearSenderKeySharedWith(addresses)` executes: parameter 1 is the
      account and parameter 3 the device id, parameter 2 (the address) is never
      set, and the statement has no distribution condition. */
  function ClearAcrossBatch(aci: string, addrs: seq<Address>): (ws: seq<Where>)
    ensures |ws| == |addrs|
    ensures forall i :: 0 <= i < |ws| ==> ws[i] == Where(Is(aci), IsUnbound, Is(addrs[i].deviceId), AnyValue)
    ensures forall i :: 0 <= i < |ws| ==> ws[i].HasUnbound()
  {
    seq(|addrs|, i requires 0 <= i < |addrs| => Where(Is(aci), IsUnbound, Is(addrs[i].deviceId), AnyValue))
  }

  /** `clearSenderKeySharedWith(addresses)` as written. Whether the driver refuses the
      unset parameter (the error is caught and logged) or compares the address with
      NULL (no row matches), no row is removed. */
  function ClearSenderKeySharedWithAcross(t: Table, aci: string, addrs: seq<Address>, db: Backend): (r: Table)
    ensures r == t
  {
    var ws := ClearAcrossBatch(aci, addrs);
    assert forall row :: !SelectedByAny(ws, row);
    match ExecuteDeleteBatch(t, ws, db)
    case Success(t') => t'
    case Failure(_) => t
  }

  /** What `clearSenderKeySharedWith(addresses)` evidently means: remove each listed
      device under every distribution of the account. */
  function ClearSenderKeySharedWithAcrossIntended(t: Table, aci: string, addrs: seq<Address>, db: Backend): (r: Table)
    ensures db.available ==> forall row :: row in r <==>
      row in t && !(row.account == aci && Address(row.address, row.device) in addrs)
    ensures !db.available ==> r == t
  {
    var ws := seq(|addrs|, i requires 0 <= i < |addrs| => Where(Is(aci), Is(addrs[i].name), Is(addrs[i].deviceId), AnyValue));
    assert forall row :: SelectedByAny(ws, row) <==>
      (row.account == aci && Address(row.address, row.device) in addrs) by {
      forall row ensures SelectedByAny(ws, row) <==>
        (row.account == aci && Address(row.address, row.device) in addrs) {
        if Address(row.address, row.device) in addrs {
          var i :| 0 <= i < |addrs| && addrs[i] == Address(row.address, row.device);
          assert ws[i].Selects(row) <==> row.account == aci;
        }
        if SelectedByAny(ws, row) {
          var i :| 0 <= i < |ws| && ws[i].Selects(row);
          assert addrs[i] == Address(row.address, row.device);
        }
      }
    }
    match ExecuteDeleteBatch(t, ws, db)
    case Success(t') => t'
    case Failure(_) => t
  }

  /** `deleteAllFor`: drop every row of distribution `d` of account `aci`; a failure
      propagates. */
  function DeleteAllFor(t: Table, aci: string, d: string, db: Backend): (r: Result<Table, SqlError>)
    ensures r.Success? <==> db.available
    ensures r.Success? ==> forall row :: row in r.value <==>
      row in t && !(row.account == aci && row.distribution == d)
  {
    ExecuteDelete(t, Where(Is(aci), AnyValue, AnyValue, Is(d)), db)
  }

  /** `deleteForAll`: drop every row of account `aci` whose address is the
      recipient's ACI, under every distribution; a failure propagates. */
  function DeleteForAll(t: Table, aci: string, recipient: Recipient, db: Backend): (r: Result<Table, SqlError>)
    ensures r.Success? <==> db.available
    ensures r.Success? ==> forall row :: row in r.value <==>
      row in t && !(row.account == aci && row.address == recipient.aci)
  {
    ExecuteDelete(t, Where(Is(aci), Is(recipient.aci), AnyValue, AnyValue), db)
  }

  /** Static `deleteAccount`: drop every row of account `uuid`, whatever tracker
      instance exists; a failure propagates. */
  function DeleteAccount(t: Table, uuid: string, db: Backend): (r: Result<Table, SqlError>)
    ensures r.Success? <==> db.available
    ensures r.Success? ==> forall row :: row in r.value <==> row in t && row.account != uuid
  {
    ExecuteDelete(t, Where(Is(uuid), AnyValue, AnyValue, AnyValue), db)
  }

  /** `deleteSharedWith`: the same statement as `deleteForAll`, under another
      operation name for the latency histogram. */
  function DeleteSharedWith(t: Table, aci: string, source: Recipient, db: Backend): (r: Result<Table, SqlError>)
    ensures r.Success? <==> db.available
    ensures r.Success? ==> forall row :: row in r.value <==>
      row in t && !(row.account == aci && row.address == source.aci)
  {
    ExecuteDelete(t, Where(Is(aci), Is(source.aci), AnyValue, AnyValue), db)
  }
}

=== FILE: sender_key_shared_lemmas.dfy ===
/**
  Properties of the sender-key tracker that relate several calls: what a read
  sees after a write, isolation between distributions and accounts, idempotence
  of marking, and the two binding mistakes of `clearSenderKeySharedWith` shown
  on concrete tables.
 */
module SenderKeySharedLemmas {
  import opened Statements
  import opened SenderKeyShared

  /** No row of any account other than `aci` was added or removed. */
  ghost predicate UnchangedOutside(t: Table, t': Table, aci: string)
  {
    forall row: Row :: row.account != aci ==> (row in t' <==> row in t)
  }

  /** The set of devices listed in a batch argument. */
  function Listed(addrs: seq<Address>): (s: set<Address>)
    ensures forall a :: a in s <==> a in addrs
  {
    set a | a in addrs
  }

  const Up := Backend(true, false)

  /** After marking, a read of the same distribution returns what it returned
      before plus exactly the marked devices. */
  lemma MarkThenGet(t: Table, aci: string, d: string, addrs: seq<Address>)
    ensures GetSenderKeySharedWith(MarkSenderKeySharedWith(t, aci, d, addrs, Up), aci, d, Up)
         == GetSenderKeySharedWith(t, aci, d, Up) + Listed(addrs)
  {
  }

  /** Marking twice leaves the same table as marking once (INSERT OR REPLACE). */
  lemma MarkIdempotent(t: Table, aci: string, d: string, addrs: seq<Address>, db: Backend)
    ensures MarkSenderKeySharedWith(MarkSenderKeySharedWith(t, aci, d, addrs, db), aci, d, addrs, db)
         == MarkSenderKeySharedWith(t, aci, d, addrs, db)
  {
  }

  /** Rotation: deleting distribution `d` empties it and leaves every other
      distribution of the account, and every other account, as it was. */
  lemma DeleteAllForIsolation(t: Table, aci: string, d: string, other: string, db: Backend)
    requires db.available
    ensures DeleteAllFor(t, aci, d, db).Success?
    ensures GetSenderKeySharedWith(DeleteAllFor(t, aci, d, db).value, aci, d, Up) == {}
    ensures other != d ==>
      GetSenderKeySharedWith(DeleteAllFor(t, aci, d, db).value, aci, other, Up) == GetSenderKeySharedWith(t, aci, other, Up)
    ensures UnchangedOutside(t, DeleteAllFor(t, aci, d, db).value, aci)
  {
  }

  /** `deleteForAll` and `deleteSharedWith` run the same statement. */
  lemma DeleteForAllIsDeleteSharedWith(t: Table, aci: string, r: Recipient, db: Backend)
    ensures DeleteForAll(t, aci, r, db) == DeleteSharedWith(t, aci, r, db)
  {
  }

  /** After `deleteForAll(r)` no distribution of the account lists a device named
      by `r`'s ACI, and devices of other names are kept. */
  lemma DeleteForAllRevokesRecipient(t: Table, aci: string, r: Recipient, d: string, db: Backend)
    requires db.available
    ensures DeleteForAll(t, aci, r, db).Success?
    ensures forall a :: a in GetSenderKeySharedWith(DeleteForAll(t, aci, r, db).value, aci, d, Up) <==>
      a in GetSenderKeySharedWith(t, aci, d, Up) && a.name != r.aci
  {
  }

  /** Account deletion is complete for the account and leaves the others alone. */
  lemma DeleteAccountComplete(t: Table, uuid: string, d: string, db: Backend)
    requires db.available
    ensures DeleteAccount(t, uuid, db).Success?
    ensures GetSenderKeySharedWith(DeleteAccount(t, uuid, db).value, uuid, d, Up) == {}
    ensures UnchangedOutside(t, DeleteAccount(t, uuid, db).value, uuid)
  {
  }

  /** Every instance method filters on the instance's account: none of them adds
      or removes a row of another account, whether it succeeds or fails. */
  lemma InstanceMethodsScoped(t: Table, aci: string, d: string, addrs: seq<Address>, r: Recipient, db: Backend)
    ensures UnchangedOutside(t, MarkSenderKeySharedWith(t, aci, d, addrs, db), aci)
    ensures UnchangedOutside(t, ClearSenderKeySharedWith(t, aci, d, addrs, db), aci)
    ensures UnchangedOutside(t, ClearSenderKeySharedWithAcross(t, aci, addrs, db), aci)
    ensures DeleteAllFor(t, aci, d, db).Success? ==> UnchangedOutside(t, DeleteAllFor(t, aci, d, db).value, aci)
    ensures DeleteForAll(t, aci, r, db).Success? ==> UnchangedOutside(t, DeleteForAll(t, aci, r, db).value, aci)
    ensures DeleteSharedWith(t, aci, r, db).Success? ==> UnchangedOutside(t, DeleteSharedWith(t, aci, r, db).value, aci)
  {
  }

  /** The corrected revocations are scoped to the account as well. */
  lemma IntendedClearsScoped(t: Table, aci: string, d: string, addrs: seq<Address>, db: Backend)
    ensures UnchangedOutside(t, ClearSenderKeySharedWithIntended(t, aci, d, addrs, db), aci)
    ensures UnchangedOutside(t, ClearSenderKeySharedWithAcrossIntended(t, aci, addrs, db), aci)
  {
  }

  /** Marking then revoking, with the corrected revocation, is set difference on
      the distribution's holders. */
  lemma MarkThenRevoke(t: Table, aci: string, d: string, marked: seq<Address>, revoked: seq<Address>)
    ensures GetSenderKeySharedWith(
              ClearSenderKeySharedWithIntended(MarkSenderKeySharedWith(t, aci, d, marked, Up), aci, d, revoked, Up),
              aci, d, Up)
         == (GetSenderKeySharedWith(t, aci, d, Up) + Listed(marked)) - Listed(revoked)
  {
  }

  /** The corrected recipient-wide revocation removes the listed devices from every
      distribution of the account. */
  lemma RevokeAcrossEveryDistribution(t: Table, aci: string, d: string, addrs: seq<Address>)
    ensures GetSenderKeySharedWith(ClearSenderKeySharedWithAcrossIntended(t, aci, addrs, Up), aci, d, Up)
         == GetSenderKeySharedWith(t, aci, d, Up) - Listed(addrs)
  {
  }

  const D1 := Address("+15550001", 1)
  const D2 := Address("+15550002", 1)

  /** `clearSenderKeySharedWith(d, [D1])` as written leaves D1 marked under `d`,
      while the corrected statement removes it. */
  lemma ClearWithDistributionMissesDevice()
    ensures var t := MarkSenderKeySharedWith({}, "A1", "dist-A", [D1], Up);
      && D1 in GetSenderKeySharedWith(ClearSenderKeySharedWith(t, "A1", "dist-A", [D1], Up), "A1", "dist-A", Up)
      && D1 !in GetSenderKeySharedWith(ClearSenderKeySharedWithIntended(t, "A1", "dist-A", [D1], Up), "A1", "dist-A", Up)
  {
  }

  /** ... and it removes a row it was never asked about: one whose address column
      happens to hold the distribution id's string. */
  lemma ClearWithDistributionHitsStranger()
    ensures var stranger := Row("A1", "dist-A", 7, "dist-A");
      && stranger !in ClearSenderKeySharedWith({stranger}, "A1", "dist-A", [Address("+15550009", 7)], Up)
  {
  }

  /** `clearSenderKeySharedWith([D1])` as written leaves D1 marked, while the
      corrected statement removes it. */
  lemma ClearAcrossMissesDevice(db: Backend)
    ensures var t := MarkSenderKeySharedWith({}, "A1", "dist-A", [D1], Up);
      && D1 in GetSenderKeySharedWith(ClearSenderKeySharedWithAcross(t, "A1", [D1], db), "A1", "dist-A", Up)
      && D1 !in GetSenderKeySharedWith(ClearSenderKeySharedWithAcrossIntended(t, "A1", [D1], Up), "A1", "dist-A", Up)
  {
  }

  /** Account A1 and distribution dist-A: mark D1 and D2, revoke D1, then rotate the
      distribution. With the corrected revoke D2 alone is left before the rotation;
      with the revoke as written both devices still hold the key. Rotation empties
      the distribution either way. */
  lemma ScenarioA1()
    ensures var t1 := MarkSenderKeySharedWith({}, "A1", "dist-A", [D1, D2], Up);
      var t2 := ClearSenderKeySharedWithIntended(t1, "A1", "dist-A", [D1], Up);
      var t2AsWritten := ClearSenderKeySharedWith(t1, "A1", "dist-A", [D1], Up);
      var t3 := DeleteAllFor(t2, "A1", "dist-A", Up);
      var t3AsWritten := DeleteAllFor(t2AsWritten, "A1", "dist-A", Up);
      && GetSenderKeySharedWith(t1, "A1", "dist-A", Up) == {D1, D2}
      && GetSenderKeySharedWith(t2, "A1", "dist-A", Up) == {D2}
      && GetSenderKeySharedWith(t2AsWritten, "A1", "dist-A", Up) == {D1, D2}
      && t3.Success? && t3AsWritten.Success?
      && GetSenderKeySharedWith(t3.value, "A1", "dist-A", Up) == {}
      && GetSenderKeySharedWith(t3AsWritten.value, "A1", "dist-A", Up) == {}
  {
  }
}

=== FILE: statements.dfy ===
/**
  Statement execution against the `sender_key_shared` table.

  The table is a set of rows `(account_uuid, address, device, distribution_id)`.
  A prepared DELETE or SELECT is described by its WHERE clause: for each column
  the clause either does not mention it, compares it with a bound parameter, or
  compares it with a parameter that was never bound. The latency histogram and
  debug logging around `executeQuery`, `executeUpdate` and `executeBatch` have no
  effect on the data, so the execution functions here are the statement itself.
 */
module Statements {
  import opened Outcomes

  /** One record of `sender_key_shared`. */
  datatype Row = Row(account: string, address: string, device: int, distribution: string)

  type Table = set<Row>

  /** How a WHERE clause constrains one column. */
  datatype Cond<T> =
    | AnyValue       // the column does not appear in the clause
    | Is(value: T)   // `column = ?` with the parameter bound to `value`
    | IsUnbound      // `column = ?` with the parameter never set

  /** Whether a column value satisfies its condition. An unbound parameter reads
      as SQL NULL, and `column = NULL` is never true. */
  predicate Holds<T(==)>(c: Cond<T>, v: T)
  {
    match c
    case AnyValue => true
    case Is(x) => v == x
    case IsUnbound => false
  }

  /** The WHERE clause of one statement (or of one entry of a batch). */
  datatype Where = Where(account: Cond<string>, address: Cond<string>, device: Cond<int>, distribution: Cond<string>)
  {
    predicate Selects(r: Row)
    {
      && Holds(account, r.account)
      && Holds(address, r.address)
      && Holds(device, r.device)
      && Holds(distribution, r.distribution)
    }

    predicate HasUnbound()
    {
      account.IsUnbound? || address.IsUnbound? || device.IsUnbound? || distribution.IsUnbound?
    }
  }

  /** What the connection does with the next statement: whether it executes at all
      (`available` is false when the driver, `DriverManager.getConnection` or a
      closed connection raises `SQLException`), and whether the driver refuses to
      run a statement with an unset parameter. The unchecked exceptions that
      `getConn` lets escape from resolving the backend kind are not a `Backend`
      failure: the tracker does not catch them. */
  datatype Backend = Backend(available: bool, rejectsUnbound: bool)

  datatype SqlError = Unavailable | UnboundParameter

  ghost predicate SelectedByAny(ws: seq<Where>, r: Row)
  {
    exists i :: 0 <= i < |ws| && ws[i].Selects(r)
  }

  predicate AnyUnbound(ws: seq<Where>)
  {
    exists i :: 0 <= i < |ws| && ws[i].HasUnbound()
  }

  lemma SelectedByAnyCons(ws: seq<Where>, r: Row)
    requires |ws| > 0
    ensures SelectedByAny(ws, r) <==> ws[0].Selects(r) || SelectedByAny(ws[1..], r)
  {
  }

  /** The entries of a DELETE batch, executed one after the other. */
  function ApplyDeletes(t: Table, ws: seq<Where>): (r: Table)
    ensures forall row :: row in r <==> row in t && !SelectedByAny(ws, row)
    decreases |ws|
  {
    if |ws| == 0 then t
    else
      var rest := ApplyDeletes(t - (set row | row in t && ws[0].Selects(row)), ws[1..]);
      assert forall row :: SelectedByAny(ws, row) <==> ws[0].Selects(row) || SelectedByAny(ws[1..], row) by {
        forall row ensures SelectedByAny(ws, row) <==> ws[0].Selects(row) || SelectedByAny(ws[1..], row) {
          SelectedByAnyCons(ws, row);
        }
      }
      rest
  }

  /** The entries of an INSERT OR REPLACE batch, executed one after the other.
      Every column is part of the row's identity, so replacing a row with an equal
      one leaves the set as it was. */
  function ApplyInserts(t: Table, rows: seq<Row>): (r: Table)
    ensures forall row :: row in r <==> row in t || row in rows
    decreases |rows|
  {
    if |rows| == 0 then t
    else
      var rest := ApplyInserts(t + {rows[0]}, rows[1..]);
      assert forall row :: row in rows <==> row == rows[0] || row in rows[1..] by {
        assert rows == [rows[0]] + rows[1..];
      }
      rest
  }

  /** `Database.executeQuery` of a SELECT: the selected rows, or the error raised. */
  function ExecuteQuery(t: Table, w: Where, db: Backend): (r: Result<Table, SqlError>)
    ensures r.Success? <==> db.available && !(db.rejectsUnbound && w.HasUnbound())
    ensures r.Success? ==> forall row :: row in r.value <==> row in t && w.Selects(row)
  {
    if !db.available then Failure(Unavailable)
    else if db.rejectsUnbound && w.HasUnbound() then Failure(UnboundParameter)
    else Success(set row | row in t && w.Selects(row))
  }

  /** `Database.executeUpdate` of one DELETE: the table afterwards, or the error raised. */
  function ExecuteDelete(t: Table, w: Where, db: Backend): (r: Result<Table, SqlError>)
    ensures r.Success? <==> db.available && !(db.rejectsUnbound && w.HasUnbound())
    ensures r.Success? ==> forall row :: row in r.value <==> row in t && !w.Selects(row)
  {
    if !db.available then Failure(Unavailable)
    else if db.rejectsUnbound && w.HasUnbound() then Failure(UnboundParameter)
    else Success(t - (set row | row in t && w.Selects(row)))
  }

  /** A DELETE and a SELECT with the same WHERE clause succeed or fail together, and
      the DELETE removes exactly the rows the SELECT returns. */
  lemma DeleteRemovesWhatQuerySelects(t: Table, w: Where, db: Backend)
    ensures ExecuteDelete(t, w, db).Success? <==> ExecuteQuery(t, w, db).Success?
    ensures ExecuteDelete(t, w, db).Success? ==>
      ExecuteDelete(t, w, db).value == t - ExecuteQuery(t, w, db).value
      && ExecuteQuery(t, w, db).value <= t
  {
  }

  /** `Database.executeBatch` of a DELETE batch. A failing batch is an error as a
      whole; no row-level effect of a partly executed batch is modelled. */
  function ExecuteDeleteBatch(t: Table, ws: seq<Where>, db: Backend): (r: Result<Table, SqlError>)
    ensures r.Success? <==> db.available && !(db.rejectsUnbound && AnyUnbound(ws))
    ensures r.Success? ==> forall row :: row in r.value <==> row in t && !SelectedByAny(ws, row)
  {
    if !db.available then Failure(Unavailable)
    else if db.rejectsUnbound && AnyUnbound(ws) then Failure(UnboundParameter)
    else Success(ApplyDeletes(t, ws))
  }

  /** `Database.executeBatch` of an INSERT OR REPLACE batch (all parameters bound). */
  function ExecuteInsertBatch(t: Table, rows: seq<Row>, db: Backend): (r: Result<Table, SqlError>)
    ensures r.Success? <==> db.available
    ensures r.Success? ==> forall row :: row in r.value <==> row in t || row in rows
  {
    if !db.available then Failure(Unavailable)
    else Success(ApplyInserts(t, rows))
  }
}
